=== FILE: README.md ===
# Library service: borrowing and payment model

A Dafny model of the borrowing lifecycle and payment settlement of a
library-rental backend. The state is one immutable value (`Library.State`):
books, borrowings and payments keyed by id, plus the next id the database
will hand out for each table. Dates are integer day numbers and money is
integer cents. Every endpoint is a pure function from a state and a request to
an outcome (new state, notifications sent, response code or result).

Modules follow the source files:

- `Catalog` (book/models.py): the book record, its cover codes and field validation.
- `Fees` (payment/service.py): the rental price and the overdue fine (2.00 per day, held as 200 cents).
- `Borrowings` (borrow/models.py): the borrowing record, first-save date stamping, display form.
- `Payments` (payment/models.py): payment status and type choices, defaults, display form, amount column.
- `Library`: the stored state, referential integrity (`Wf`), the single-active-borrowing invariant, cascade deletion.
- `BorrowSerializers` (borrow/serializers.py): create-request validation and the return update.
- `PaymentViews` (payment/views.py): payment listing, checkout-session creation, the settlement webhook, the status page.
- `BorrowViews` (borrow/views.py): borrowing listing, create with rollback, return with inventory and fine.
- `OverdueTask` (borrow/tasks.py): the daily overdue selection and its messages.

External collaborators are parameters. The payment gateway's session
creation is a `GatewayReply` (`Opened(id, url)` or `Declined`). The webhook's
payload parsing and signature check are folded into `WebhookEvent`
(`Unparseable`, `ForgedSignature` or an authentic `Event`). Chat messages are
`Notice` values in the outcome. The scanner's per-message delivery result is a
function `BorrowingId -> bool`. "Today" is a parameter of every operation that
reads the clock.

Behaviour worth knowing, as the code does it:

- A borrowing is addressed through the listing filter. A user who is not
  staff only sees their own active borrowings, so their return of an
  already-returned borrowing gets 404, not 400. Only staff reach the 400 answer.
- Creation announces the new borrowing before it opens the payment session.
  When the session fails, the row is deleted but the announcement has gone out.
- Payment lookup by session id follows single-row fetch semantics. No row
  gives 404. More than one row is an unhandled error (500). Fine payments are
  stored with an empty session id, so several fines share one.
- Creation neither checks nor changes the book's inventory; only a return
  touches it (see Findings).

## Model

| member | source | states |
|---|---|---|
| Catalog.ParseCover | book/models.py:6-8 | only the codes HARD and SOFT are covers, and each parses to the cover whose code it is |
| Catalog.CoverCodeRoundTrip | book/models.py:6-12 | each cover's code fits the four-character column and reads back as that cover |
| Catalog.Label | book/models.py:16-17 | a book is displayed as its title, which for a valid book is non-blank and at most 255 characters |
| Catalog.FullClean | book/models.py:10-14 | a book passes validation exactly when title and author are non-blank and at most 255 characters, inventory is not negative and the fee is at most 999.99 in size; the negative-inventory and fee errors are reported exactly when those fields fail |
| Fees.RentalPrice | payment/service.py:12-24 | the rent is the planned number of days times the daily fee: a same-day period costs nothing, a forward period at a non-negative fee is never negative, and a backward period at a positive fee gives a negative amount because nothing guards it |
| Fees.RentalPriceIsAccrued | payment/service.py:12-24 | for a period that does not run backwards, the price equals the daily fee charged once for every day of the period |
| Fees.RentalPriceAdditive | payment/service.py:21-24 | the price of a period is the sum of the prices of two consecutive sub-periods |
| Fees.RentalPriceDoubles | payment/service.py:21-24 | doubling the number of days doubles the price for the same fee |
| Fees.RentalPriceSign | payment/service.py:21-24 | with a positive fee the price is zero for a same-day period, positive for a forward period and negative when the expected date precedes the borrow date (no guard) |
| Fees.Fine | payment/service.py:27-36 | the fine is never negative and is positive exactly when there is an expected date and today is after it |
| Fees.FineIsAccrued | payment/service.py:31-36 | the fine is zero up to the expected date and afterwards the per-day fine charged once for every overdue day |
| Fees.FineStep | payment/service.py:31-36 | from the expected date on, each further day adds exactly 2.00 |
| Fees.FineMonotone | payment/service.py:27-36 | a later return never owes a smaller fine |
| Borrowings.Save | borrow/models.py:15-18 | the first save stamps the borrow date with today whatever was supplied; later saves keep it; no other field changes |
| Borrowings.SaveStampsOnce | borrow/models.py:15-18 | a later save of a freshly inserted row never moves its borrow date |
| Borrowings.Label | borrow/models.py:20-21 | the display form is the email, then " borrowed ", then the book title |
| Payments.CodesRoundTrip | payment/models.py:7-23 | status and type codes fit the seven-character columns and parse back to the choice they came from |
| Payments.NewPayment | payment/models.py:18-23 | an omitted status defaults to PENDING and an omitted type to PAYMENT; given values and other fields are kept |
| Payments.Label | payment/models.py:28-29 | the display form is the type code, then " - ", then the status code |
| Payments.LabelRoundTrip | payment/models.py:28-29 | the display form "{type} - {status}" determines the type and the status |
| Payments.RentalPriceFitsColumn | payment/models.py:26 | a rental of up to 1000 days of a book whose fee fits its column has a price that fits the amount column (at most 999999.99) |
| Library.StoreBorrowing | borrow/tests/test_borrowing_api.py:57-69 | saving a borrowing row directly, even with a return date, leaves every book and payment unchanged; a new row takes the next id and the state stays well formed |
| Library.Restock | borrow/views.py:85-86 | the inventory change touches exactly one book, by exactly the given number of copies, and no other field of it |
| Library.DeleteBorrowing | payment/models.py:15-17 | deleting a borrowing removes exactly that row and exactly the payments referring to it; every surviving borrowing and payment is unchanged, as are the books and both id counters, and the foreign keys stay intact |
| Library.DeleteUndoesInsert | borrow/views.py:62-68 | deleting a row just inserted under a fresh id restores the borrowings and payments of before the insertion |
| BorrowSerializers.ValidateCreate | borrow/serializers.py:23-41 | a create request is accepted exactly when it names an existing book and an expected date and the requester has no active borrowing; accepted input is the two writable fields unchanged; no bound on the expected date |
| BorrowSerializers.ValidateIgnoresReadOnly | borrow/serializers.py:24-25 | a client-supplied user or borrow date has no effect on validation |
| BorrowSerializers.ApplyReturnUpdate | borrow/serializers.py:44-47 | a return update can change only the actual return date, whatever other fields the body names |
| PaymentViews.ListPayments | payment/views.py:30-46 | staff list every payment; other users list exactly the pending payments of their own borrowings, with stored contents |
| PaymentViews.BaseQueryIsOwnPayments | payment/views.py:30-37 | for users who are not staff the base query's status condition excludes nothing: it is exactly their own payments |
| PaymentViews.CreateSession | payment/views.py:49-93 | an unknown borrowing gives 404; otherwise the gateway is asked for the rental price in cents; success records one pending PAYMENT-type payment with that amount and the gateway's session, a declined session gives 400; anything other than success leaves the state untouched |
| PaymentViews.Get | payment/views.py:116-125 | fetching by session id reports no match, the one match, or more than one match, according to how many payments carry the id |
| PaymentViews.Webhook | payment/views.py:99-127 | unreadable or forged deliveries give 400 and other event types 200, both with no change; a completed-session event marks the one matching payment PAID and answers 200 whatever its prior status, gives 404 with no match and 500 with several; nothing else in the state changes |
| PaymentViews.WebhookIdempotent | payment/views.py:112-122 | delivering the same event a second time changes nothing and gets the same response |
| PaymentViews.WebhookNeverUnpays | payment/views.py:112-122 | a PAID payment stays PAID after any delivery |
| PaymentViews.PaymentStatus | payment/views.py:130-153 | the reply is 400 exactly when the session id is missing or empty, 404 exactly when no payment has it, 500 exactly when more than one does, and 200 with the stored status exactly when one does |
| PaymentViews.SettledSessionReportsPaid | payment/views.py:112-153 | after a completed-session event for a session with one payment, the status page answers 200 with PAID |
| BorrowViews.Visible | borrow/views.py:35-44 | staff see every borrowing; other users see exactly their own borrowings that are not returned |
| BorrowViews.Create | borrow/views.py:46-69 | creation succeeds exactly when validation passes and the gateway opens a session; a request failing validation is answered with its validation errors, announces nothing and uses no id; it then adds one active borrowing dated today for the caller and one pending rental payment of its price; a valid request the gateway declines fails with a session error after announcing the new borrowing and using up its id; any failure leaves books, borrowings and payments as they were; inventory never changes |
| BorrowViews.CreateKeepsSingleActive | borrow/views.py:47-56 | after a creation no user holds more than one active borrowing, given none did before |
| BorrowViews.CreateRollbackRestores | borrow/views.py:62-68 | when the gateway declines, the request fails and only the id counter differs from the state before |
| BorrowViews.ReturnBook | borrow/views.py:71-104 | a borrowing not visible to the caller gives 404 and an already returned one 400, both unchanged; otherwise the return date becomes today, exactly that book gains one copy, and exactly one pending FINE payment of the fine is added when the fine is positive, none otherwise |
| BorrowViews.ReturnKeepsSingleActive | borrow/views.py:80-86 | a return never leaves a user with two active borrowings |
| BorrowViews.NonStaffReturnOfReturnedIsNotFound | borrow/views.py:35-78 | a user who is not staff returning an already returned borrowing gets 404 |
| BorrowViews.SecondReturnRefused | borrow/views.py:74-78 | returning a borrowing again as staff after a successful return gives 400 and changes nothing |
| BorrowViews.CreateThenReturnInflatesInventory | borrow/views.py:46-86 | a borrowing created and then returned by its owner leaves its book with one copy more than before |
| BorrowViews.InflationExample | borrow/views.py:46-98 | five copies at 1.50 a day, a seven-day loan priced 10.50, returned three days late: six copies and a pending fine of 6.00 |
| BorrowViews.CreateStocked | borrow/tests/test_borrowing_api.py:38-55 | corrected creation: refused as out of stock exactly when a valid request names a book without copies on hand, a success takes exactly one copy of that book, a failure changes no book, borrowing or payment |
| BorrowViews.CreateStockedThenReturnRestoresInventory | borrow/views.py:80-86 | with the corrected creation, create then return leaves every book exactly as before |
| OverdueTask.Selected | borrow/tasks.py:10-15 | a borrowing is selected exactly when it is due today or earlier and not returned |
| OverdueTask.SelectionAndFine | borrow/tasks.py:10-15 | a selected borrowing past its date already owes a fine, one due today owes none, and an unselected active one owes none |
| OverdueTask.CheckOverdue | borrow/tasks.py:9-31 | an empty selection sends exactly the one "nothing overdue" message; otherwise one notice per selected borrowing, no repeats, and the failed sends are exactly the selected ones whose delivery failed |

## Left out

- The payment gateway client and webhook verification library are foreign calls; they enter only as `GatewayReply` and `WebhookEvent` values.
- Chat message sending is I/O. Notices carry the borrowing id and amount; the rendered message texts are not modelled.
- OverdueTask.CheckOverdue: the notice names the borrowing, not the rendered text with title, email and expected date.
- Success and cancel URL building, URL reversing and request plumbing are string glue with no stated behaviour.
- The payment cancel route names an action that does not exist in payment/views.py, so there is no logic to model.
- Generic create, update and delete of payments and books, and the update and delete of borrowings, through the routers are framework CRUD. The borrowing update and delete use a serializer whose user, book, expected and actual return dates are all writable. Such a request can set or clear a return without the return logic, so no fine and no restock. It can also give a user a second active borrowing. A delete removes the borrowing's payments with it. The single-active results `BorrowViews.CreateKeepsSingleActive` and `BorrowViews.ReturnKeepsSingleActive` cover only creation and the return action.
- The ORM, migrations, routers and authentication are framework wiring.
- Concurrency is not modelled: request interleaving, redelivery ordering and task scheduling. The model is sequential.
- Decimal arithmetic is replaced by integer cents. The gateway amount `int(money * 100)` is therefore the price in cents itself.
- The database's own rejection of values too wide for a column is not modelled. This covers an amount beyond 999999.99.
- Catalog.FullClean: does not check the upper bound of the inventory. The positive-integer field's range validator rejects a value above the backend's integer range (2147483647 on the usual backends) during full cleaning. The model only checks the lower bound of 0.
- The return view's serializer validity check is left out. It always passes for the date the view supplies, so its 400 branch is dead.
- Clock sources differ in the source: the views use UTC dates and the task uses the local date. Both are the single `today` parameter here.
- Identifier allocation is a counter that never goes back. A rolled-back creation therefore consumes an id.

## Findings

| source | as written | input that shows it | evidently intended | confidence | as-written member | corrected member |
|---|---|---|---|---|---|---|
| borrow/views.py:46-69 | creating a borrowing neither checks nor decrements the book's inventory, while a return adds a copy back | a book with 5 copies at 1.50 a day, borrowed for 7 days and returned 3 days late, ends with 6 copies | creation refuses a book with no copies and takes one copy out, as the model test does by hand before creating a borrowing (borrow/tests/test_borrowing_api.py:43-46) and as the return's re-increment presumes (borrow/views.py:85-86); putting the copy back when the payment session fails is inferred from that case deleting the new row (borrow/views.py:66-68) | medium; not executed | BorrowViews.CreateThenReturnInflatesInventory | BorrowViews.CreateStocked |

`BorrowViews.InflationExample` is the concrete instance of the first row. The
corrected creation `BorrowViews.CreateStocked` is proved to keep every
inventory non-negative (through `Wf`) and to round-trip with the return
(`BorrowViews.CreateStockedThenReturnRestoresInventory`). `BorrowViews.Create`
stays the as-written behaviour that the other lemmas describe.

=== FILE: borrow_serializers.dfy ===
/**
 * Request validation for borrowings (borrow/serializers.py): what a client may
 * write when creating a borrowing and when returning one.
 */
module BorrowSerializers {
  import opened Wrappers
  import opened Fees
  import opened Catalog
  import opened Borrowings
  import opened Library

  /**
   * The body of a create request as the client sent it. `user` and
   * `borrowDate` may be present but are read-only fields.
   */
  datatype CreateRequest = CreateRequest(
    user: Option<UserId>,
    book: Option<BookId>,
    borrowDate: Option<Day>,
    expectedReturn: Option<Day>)

  /** The writable fields that survive validation. */
  datatype CreateInput = CreateInput(book: BookId, expectedReturn: Day)

  datatype ValidationError =
    | BookRequired
    | UnknownBook
    | ExpectedReturnRequired
    | ActiveBorrowingExists

  /** Field-level errors of a create request, one per failing field. */
  function FieldErrors(s: State, req: CreateRequest): seq<ValidationError>
  {
    (match req.book
     case None => [BookRequired]
     case Some(b) => if b in s.books then [] else [UnknownBook])
    + (if req.expectedReturn.None? then [ExpectedReturnRequired] else [])
  }

  /**
   * Validation of a create request for `requester`: the book and the expected
   * return date are required and the book must exist; once the fields pass, the
   * requester must hold no active borrowing. No bound on the expected date is
   * checked.
   */
  function ValidateCreate(s: State, requester: UserId, req: CreateRequest): (r: Result<CreateInput, seq<ValidationError>>)
    ensures r.Ok? <==> req.book.Some? && req.book.value in s.books && req.expectedReturn.Some? && !HasActive(s, requester)
    ensures r.Ok? ==> r.value == CreateInput(req.book.value, req.expectedReturn.value)
    ensures r.Err? ==> |r.error| > 0
    ensures r.Err? && req.book.Some? && req.book.value in s.books && req.expectedReturn.Some?
            ==> r.error == [ActiveBorrowingExists]
    ensures r.Err? && ActiveBorrowingExists in r.error ==> HasActive(s, requester)
  {
    var errors := FieldErrors(s, req);
    if |errors| > 0 then Err(errors)
    else if HasActive(s, requester) then Err([ActiveBorrowingExists])
    else Ok(CreateInput(req.book.value, req.expectedReturn.value))
  }

  /** The read-only fields of a create request have no influence on its validation. */
  lemma ValidateIgnoresReadOnly(s: State, requester: UserId, req: CreateRequest, user: Option<UserId>, borrowDate: Option<Day>)
    ensures ValidateCreate(s, requester, req.(user := user, borrowDate := borrowDate)) == ValidateCreate(s, requester, req)
  {
  }

  /** A partial update body naming any of a borrowing's columns. */
  datatype BorrowingUpdate = BorrowingUpdate(
    user: Option<UserId>,
    book: Option<BookId>,
    borrowDate: Option<Day>,
    expectedReturn: Option<Day>,
    actualReturn: Option<Option<Day>>)

  /** A partial update through the return serializer, whose only field is the actual return date. */
  function ApplyReturnUpdate(b: Borrowing, u: BorrowingUpdate): (r: Borrowing)
    ensures r.(actualReturn := b.actualReturn) == b
    ensures u.actualReturn.Some? ==> r.actualReturn == u.actualReturn.value
    ensures u.actualReturn.None? ==> r == b
  {
    match u.actualReturn
    case Some(d) => b.(actualReturn := d)
    case None => b
  }
}

=== FILE: borrow_views.dfy ===
/**
 * The borrowing endpoints (borrow/views.py): the listing filter, creating a
 * borrowing with its payment session, and returning a book.
 */
module BorrowViews {
  import opened Wrappers
  import opened Fees
  import opened Catalog
  import opened Borrowings
  import opened Payments
  import opened Library
  import opened BorrowSerializers
  import PaymentViews

  /** The borrowings a caller can list or address: all for staff, otherwise only the caller's active ones. */
  function Visible(s: State, actor: Actor): (r: map<BorrowingId, Borrowing>)
    ensures forall id :: id in r <==>
      id in s.borrowings && (actor.isStaff || (s.borrowings[id].user == actor.id && IsActive(s.borrowings[id])))
    ensures forall id :: id in r ==> r[id] == s.borrowings[id]
  {
    if actor.isStaff then s.borrowings
    else map id | id in s.borrowings && s.borrowings[id].user == actor.id
                  && s.borrowings[id].actualReturn.None? :: s.borrowings[id]
  }

  // ---------------------------------------------------------------- create

  datatype CreateError =
    | Invalid(errors: seq<ValidationError>)
    | SessionFailed
    | OutOfStock

  datatype CreateOutcome = CreateOutcome(state: State, notices: seq<Notice>, result: Result<BorrowingId, CreateError>)

  /** The borrowing row written for a validated request: dated today, not yet returned. */
  function Fresh(actor: Actor, input: CreateInput, today: Day): Borrowing
  {
    // The borrow date column has no value of its own until the first save stamps it.
    Borrowings.Save(Borrowing(actor.id, input.book, 0, input.expectedReturn, None), false, today)
  }

  /**
   * Creating a borrowing. The request is validated; the caller's active
   * borrowing is checked once more; the row is inserted and announced; then a
   * checkout session is opened for it. If that does not answer 200 the row is
   * deleted again and the request fails. Inventory is not consulted or changed.
   */
  function Create(s: State, actor: Actor, req: CreateRequest, today: Day, reply: PaymentViews.GatewayReply): (o: CreateOutcome)
    requires Wf(s)
    ensures Wf(o.state)
    ensures o.state.books == s.books
    ensures o.result.Ok? <==> ValidateCreate(s, actor.id, req).Ok? && reply.Opened?
    ensures HasActive(s, actor.id) ==> o.result.Err? && o.result.error.Invalid? && o.state == s && o.notices == []
    ensures ValidateCreate(s, actor.id, req).Err? ==>
      o == CreateOutcome(s, [], Err(Invalid(ValidateCreate(s, actor.id, req).error)))
    ensures o.result.Err? && o.result.error.Invalid? ==> o.state == s && o.notices == []
    ensures o.result.Err? ==> o.state.borrowings == s.borrowings && o.state.payments == s.payments
    ensures o.result == Err(SessionFailed) ==> o.notices == [NewBorrowing(s.nextBorrowingId)]
    ensures ValidateCreate(s, actor.id, req).Ok? && reply.Declined? ==>
      o.result == Err(SessionFailed) && o.state.nextBorrowingId == s.nextBorrowingId + 1
    ensures o.result.Ok? ==>
      var id := o.result.value;
      && id == s.nextBorrowingId && id !in s.borrowings
      && o.notices == [NewBorrowing(id)]
      && id in o.state.borrowings
      && o.state.borrowings == s.borrowings[id := o.state.borrowings[id]]
      && o.state.borrowings[id] == Borrowing(actor.id, req.book.value, today, req.expectedReturn.value, None)
      && o.state.nextBorrowingId == s.nextBorrowingId + 1
      && AddsPayment(s.(borrowings := o.state.borrowings, nextBorrowingId := o.state.nextBorrowingId), o.state,
                     Payment(id, Pending, Rent, reply.url, reply.sessionId, PriceOf(o.state, id)))
  {
    match ValidateCreate(s, actor.id, req)
    case Err(errors) => CreateOutcome(s, [], Err(Invalid(errors)))
    case Ok(input) =>
      if HasActive(s, actor.id) then
        // The view repeats the serializer's check; validation has already excluded this case.
        CreateOutcome(s, [], Err(Invalid([ActiveBorrowingExists])))
      else
        var id := s.nextBorrowingId;
        var inserted := s.(borrowings := s.borrowings[id := Fresh(actor, input, today)], nextBorrowingId := id + 1);
        var notices := [NewBorrowing(id)];
        var session := PaymentViews.CreateSession(inserted, id, reply);
        if session.code != 200 then
          CreateOutcome(DeleteBorrowing(session.state, id), notices, Err(SessionFailed))
        else
          CreateOutcome(session.state, notices, Ok(id))
  }

  /** A failed payment session leaves books, borrowings and payments exactly as they were. */
  lemma CreateRollbackRestores(s: State, actor: Actor, req: CreateRequest, today: Day)
    requires Wf(s)
    ensures var o := Create(s, actor, req, today, PaymentViews.Declined);
      o.result.Err? && o.state == s.(nextBorrowingId := o.state.nextBorrowingId)
  {
  }

  /** Creation never gives a user a second active borrowing. */
  lemma CreateKeepsSingleActive(s: State, actor: Actor, req: CreateRequest, today: Day, reply: PaymentViews.GatewayReply)
    requires Wf(s) && SingleActive(s)
    ensures SingleActive(Create(s, actor, req, today, reply).state)
  {
    var o := Create(s, actor, req, today, reply);
    if o.result.Ok? {
      InsertKeepsSingleActive(s, o.state, o.result.value);
    }
  }

  // ---------------------------------------------------------------- return

  datatype ReturnOutcome = ReturnOutcome(state: State, notices: seq<Notice>, code: int)

  /** The fine owed on a borrowing returned on `today`. */
  function FineOf(b: Borrowing, today: Day): Cents
  {
    Fine(Some(b.expectedReturn), today)
  }

  /**
   * Returning borrowing `id`. It must be visible to the caller (404
   * otherwise) and not yet returned (400 otherwise). The return date is set
   * to today, one copy goes back to the book's inventory, and when a fine is
   * owed one pending fine payment without a session is recorded and
   * announced.
   */
  function ReturnBook(s: State, actor: Actor, id: BorrowingId, today: Day): (o: ReturnOutcome)
    requires Wf(s)
    ensures Wf(o.state)
    ensures id !in Visible(s, actor) ==> o == ReturnOutcome(s, [], 404)
    ensures id in Visible(s, actor) && !IsActive(s.borrowings[id]) ==> o == ReturnOutcome(s, [], 400)
    ensures o.code == 200 <==> id in Visible(s, actor) && IsActive(s.borrowings[id])
    ensures o.code == 200 ==>
      var b := s.borrowings[id];
      && o.state.borrowings == s.borrowings[id := b.(actualReturn := Some(today))]
      && o.state.books == Restock(s.books, b.book, 1)
      && o.state.nextBorrowingId == s.nextBorrowingId
      && (FineOf(b, today) > 0 ==>
            && o.state.payments == s.payments[s.nextPaymentId := Payment(id, Pending, Penalty, "", "", FineOf(b, today))]
            && s.nextPaymentId !in s.payments
            && o.state.nextPaymentId == s.nextPaymentId + 1
            && o.notices == [FineIssued(id, FineOf(b, today))])
      && (FineOf(b, today) == 0 ==>
            o.state.payments == s.payments && o.state.nextPaymentId == s.nextPaymentId && o.notices == [])
  {
    if id !in Visible(s, actor) then ReturnOutcome(s, [], 404)
    else
      var b := s.borrowings[id];
      if b.actualReturn.Some? then ReturnOutcome(s, [], 400)
      else
        var update := BorrowingUpdate(None, None, None, None, Some(Some(today)));
        var returned := Borrowings.Save(ApplyReturnUpdate(b, update), true, today);
        var restocked := s.(borrowings := s.borrowings[id := returned], books := Restock(s.books, b.book, 1));
        var fine := FineOf(returned, today);
        if fine > 0 then
          var p := NewPayment(id, Some(Pending), Some(Penalty), "", "", fine);
          ReturnOutcome(
            restocked.(payments := s.payments[s.nextPaymentId := p], nextPaymentId := s.nextPaymentId + 1),
            [FineIssued(id, fine)], 200)
        else
          ReturnOutcome(restocked, [], 200)
  }

  /** A return never gives a user a second active borrowing. */
  lemma ReturnKeepsSingleActive(s: State, actor: Actor, id: BorrowingId, today: Day)
    requires Wf(s) && SingleActive(s)
    ensures SingleActive(ReturnBook(s, actor, id, today).state)
  {
    var o := ReturnBook(s, actor, id, today);
    if o.code == 200 {
      CloseKeepsSingleActive(s, o.state, id);
    }
  }

  /** A user who is not staff never reaches the already-returned answer: a returned borrowing is hidden from them. */
  lemma NonStaffReturnOfReturnedIsNotFound(s: State, actor: Actor, id: BorrowingId, today: Day)
    requires Wf(s) && !actor.isStaff
    requires id in s.borrowings && !IsActive(s.borrowings[id])
    ensures ReturnBook(s, actor, id, today).code == 404
  {
  }

  /** Returning twice: the second return is refused and changes nothing. */
  lemma SecondReturnRefused(s: State, actor: Actor, id: BorrowingId, first: Day, second: Day)
    requires Wf(s) && actor.isStaff
    requires ReturnBook(s, actor, id, first).code == 200
    ensures var t := ReturnBook(s, actor, id, first).state;
      ReturnBook(t, actor, id, second) == ReturnOutcome(t, [], 400)
  {
  }

  // ------------------------------------------------- create then return

  /**
   * As written, a borrowing that is created and then returned by its owner
   * leaves its book with one copy more than before: creation never takes a
   * copy out, while the return puts one back.
   */
  lemma CreateThenReturnInflatesInventory(
    s: State, actor: Actor, req: CreateRequest, today: Day, reply: PaymentViews.GatewayReply, later: Day)
    requires Wf(s)
    requires Create(s, actor, req, today, reply).result.Ok?
    ensures var o := Create(s, actor, req, today, reply);
      var r := ReturnBook(o.state, actor, o.result.value, later);
      var k := req.book.value;
      && r.code == 200
      && k in s.books && r.state.books == Restock(s.books, k, 1)
  {
    var o := Create(s, actor, req, today, reply);
    var id := o.result.value;
    assert id in Visible(o.state, actor);
  }

  /** The concrete case: five copies, a week's loan returned three days late, six copies afterwards. */
  lemma InflationExample()
    ensures
      var book := Book("Test Book", "Test Author", Hard, 5, 150);
      var s := State(map[1 := book], map[], map[], 1, 1);
      var req := CreateRequest(None, Some(1), None, Some(7));
      var o := Create(s, Actor(1, false), req, 0, PaymentViews.Opened("cs_1", "https://pay/cs_1"));
      && o.result == Ok(1)
      && o.state.payments[1].amount == 1050
      && var r := ReturnBook(o.state, Actor(1, false), 1, 10);
      && r.state.books[1].inventory == 6
      && r.state.payments[2] == Payment(1, Pending, Penalty, "", "", 600)
  {
    var book := Book("Test Book", "Test Author", Hard, 5, 150);
    var s := State(map[1 := book], map[], map[], 1, 1);
    assert !HasActive(s, 1);
    var req := CreateRequest(None, Some(1), None, Some(7));
    var o := Create(s, Actor(1, false), req, 0, PaymentViews.Opened("cs_1", "https://pay/cs_1"));
    assert o.result == Ok(1);
    assert o.state.borrowings[1] == Borrowing(1, 1, 0, 7, None);
  }

  // ----------------------------------------- creation that takes a copy

  /**
   * Creation with the stock check and decrement that the borrowing model test
   * performs by hand (borrow/tests/test_borrowing_api.py:43-46), matching the
   * copy the return puts back (borrow/views.py:85-86): a book without copies on
   * hand is refused and a successful creation takes one copy out. Putting the
   * copy back when the payment session fails is inferred from the row deletion
   * of that case (borrow/views.py:66-68).
   */
  function CreateStocked(s: State, actor: Actor, req: CreateRequest, today: Day, reply: PaymentViews.GatewayReply): (o: CreateOutcome)
    requires Wf(s)
    ensures Wf(o.state)
    ensures o.result.Ok? <==>
      ValidateCreate(s, actor.id, req).Ok? && s.books[req.book.value].inventory > 0 && reply.Opened?
    ensures o.result == Err(OutOfStock) <==>
      ValidateCreate(s, actor.id, req).Ok? && s.books[req.book.value].inventory <= 0
    ensures o.result == Err(OutOfStock) ==> o.state == s && o.notices == []
    ensures o.result.Err? ==> o.state.books == s.books && o.state.borrowings == s.borrowings && o.state.payments == s.payments
    ensures o.result.Ok? ==>
      var k := req.book.value;
      && o.state.books == Restock(s.books, k, -1)
      && o.result.value in o.state.borrowings
      && o.state.borrowings == s.borrowings[o.result.value := o.state.borrowings[o.result.value]]
      && o.state.borrowings[o.result.value] == Borrowing(actor.id, k, today, req.expectedReturn.value, None)
  {
    match ValidateCreate(s, actor.id, req)
    case Err(errors) => CreateOutcome(s, [], Err(Invalid(errors)))
    case Ok(input) =>
      var book := s.books[input.book];
      if book.inventory <= 0 then CreateOutcome(s, [], Err(OutOfStock))
      else
        var id := s.nextBorrowingId;
        var inserted := s.(borrowings := s.borrowings[id := Fresh(actor, input, today)], nextBorrowingId := id + 1,
                           books := Restock(s.books, input.book, -1));
        var notices := [NewBorrowing(id)];
        var session := PaymentViews.CreateSession(inserted, id, reply);
        if session.code != 200 then
          DeleteUndoesInsert(s, session.state, id);
          var deleted := DeleteBorrowing(session.state, id);
          CreateOutcome(deleted.(books := s.books), notices, Err(SessionFailed))
        else
          CreateOutcome(session.state, notices, Ok(id))
  }

  /** With copies taken out on creation, returning the borrowing restores the book's inventory exactly. */
  lemma CreateStockedThenReturnRestoresInventory(
    s: State, actor: Actor, req: CreateRequest, today: Day, reply: PaymentViews.GatewayReply, later: Day)
    requires Wf(s)
    requires CreateStocked(s, actor, req, today, reply).result.Ok?
    ensures var o := CreateStocked(s, actor, req, today, reply);
      var r := ReturnBook(o.state, actor, o.result.value, later);
      r.code == 200 && r.state.books == s.books
  {
    var o := CreateStocked(s, actor, req, today, reply);
    var id := o.result.value;
    var k := req.book.value;
    var t := o.state;
    assert t.borrowings[id] == Borrowing(actor.id, k, today, req.expectedReturn.value, None);
    assert id in Visible(t, actor);
    var r := ReturnBook(t, actor, id, later);
    assert r.code == 200;
    RestockUndo(s.books, k);
  }


}

=== FILE: borrowings.dfy ===
/** The Borrowing record (borrow/models.py): one rental episode of one book by one user. */
module Borrowings {
  import opened Wrappers
  import opened Fees
  import Catalog

  type BorrowingId = nat
  type UserId = nat

  /** A rental; `actualReturn` is empty while the book is still out. */
  datatype Borrowing = Borrowing(
    user: UserId,
    book: Catalog.BookId,
    borrowDate: Day,
    expectedReturn: Day,
    actualReturn: Option<Day>)

  /** A borrowing is active until its actual return date is recorded. */
  predicate IsActive(b: Borrowing)
  {
    b.actualReturn.None?
  }

  /**
   * Writing a borrowing row. The first write (the row is not `stored` yet)
   * stamps the borrow date with today's date, whatever the record carried;
   * later writes store the record as it is.
   */
  function Save(b: Borrowing, stored: bool, today: Day): (r: Borrowing)
    ensures !stored ==> r.borrowDate == today
    ensures stored ==> r.borrowDate == b.borrowDate
    ensures r.(borrowDate := b.borrowDate) == b
  {
    if stored then b else b.(borrowDate := today)
  }

  /** A second save of a freshly inserted row never moves its borrow date. */
  lemma SaveStampsOnce(b: Borrowing, first: Day, later: Day)
    ensures Save(Save(b, false, first), true, later).borrowDate == first
    ensures Save(Save(b, false, first), true, later) == Save(b, false, first)
  {
  }

  const BorrowedWord := " borrowed "

  /** The display form "{email} borrowed {title}". */
  function Label(email: string, book: Catalog.Book): (s: string)
    ensures |s| == |email| + |BorrowedWord| + |book.title|
    ensures s[..|email|] == email
    ensures s[|email|..|email| + |BorrowedWord|] == BorrowedWord
    ensures s[|s| - |book.title|..] == book.title
  {
    email + BorrowedWord + Catalog.Label(book)
  }
}

=== FILE: catalog.dfy ===
/** The Book record of the catalogue (book/models.py): cover kind, copies on hand and the daily fee. */
module Catalog {
  import opened Wrappers

  type BookId = nat

  /** The two cover kinds; stored as the codes "HARD" and "SOFT" in a four-character column. */
  datatype Cover = Hard | Soft

  const CoverColumnWidth := 4

  function CoverCode(c: Cover): string
  {
    match c
    case Hard => "HARD"
    case Soft => "SOFT"
  }

  /** Reads a stored cover code back; anything but the two codes is not a valid choice. */
  function ParseCover(s: string): (r: Option<Cover>)
    ensures r.Some? ==> CoverCode(r.value) == s
    ensures r.None? ==> s != "HARD" && s != "SOFT"
  {
    if s == "HARD" then Some(Hard)
    else if s == "SOFT" then Some(Soft)
    else None
  }

  /** Every cover code fits its column and parses back to the cover it came from. */
  lemma CoverCodeRoundTrip(c: Cover)
    ensures |CoverCode(c)| <= CoverColumnWidth
    ensures ParseCover(CoverCode(c)) == Some(c)
  {
  }

  /** A catalogue entry. The daily fee is held in cents (the column keeps two decimal places). */
  datatype Book = Book(title: string, author: string, cover: Cover, inventory: int, dailyFee: int)

  const MaxNameLength := 255

  /** The fee column holds at most five digits of which two are decimals: at most 999.99. */
  const MaxFeeCents := 99999

  predicate FeeFits(cents: int)
  {
    -MaxFeeCents <= cents <= MaxFeeCents
  }

  /** What model validation demands of a book before it may be stored. */
  predicate ValidBook(b: Book)
  {
    && 0 < |b.title| <= MaxNameLength
    && 0 < |b.author| <= MaxNameLength
    && b.inventory >= 0
    && FeeFits(b.dailyFee)
  }

  datatype BookError = BlankTitle | TitleTooLong | BlankAuthor | AuthorTooLong | NegativeInventory | FeeOutOfRange

  function NameProblems(name: string, blank: BookError, tooLong: BookError): seq<BookError>
  {
    if |name| == 0 then [blank] else if |name| > MaxNameLength then [tooLong] else []
  }

  /**
   * Field validation of a book: every failing field contributes its error, and
   * the book is accepted unchanged only when no field fails.
   */
  function FullClean(b: Book): (r: Result<Book, seq<BookError>>)
    ensures r.Ok? <==> ValidBook(b)
    ensures r.Ok? ==> r.value == b
    ensures r.Err? ==> |r.error| > 0
    ensures r.Err? ==> (NegativeInventory in r.error <==> b.inventory < 0)
    ensures r.Err? ==> (FeeOutOfRange in r.error <==> !FeeFits(b.dailyFee))
  {
    var errors :=
      NameProblems(b.title, BlankTitle, TitleTooLong)
      + NameProblems(b.author, BlankAuthor, AuthorTooLong)
      + (if b.inventory < 0 then [NegativeInventory] else [])
      + (if FeeFits(b.dailyFee) then [] else [FeeOutOfRange]);
    if |errors| == 0 then Ok(b) else Err(errors)
  }

  /** A book is displayed by its title. */
  function Label(b: Book): (s: string)
    ensures s == b.title
    ensures ValidBook(b) ==> 0 < |s| <= MaxNameLength
  {
    b.title
  }
}

=== FILE: fees.dfy ===
/** The fee calculator (payment/service.py): the rental price and the overdue fine. */
module Fees {
  import opened Wrappers

  /** A calendar date as a day number; the difference of two dates is a number of days. */
  type Day = int

  /** An amount of money in cents. */
  type Cents = int

  /** The fine charged per overdue day: two currency units. */
  const FinePerDay: Cents := 200

  /** Days borrowed (expected return date minus borrow date) times the daily fee; no guard on the order of the dates. */
  function RentalPrice(borrowDate: Day, expectedReturn: Day, dailyFee: Cents): (r: Cents)
    ensures expectedReturn == borrowDate ==> r == 0
    ensures borrowDate <= expectedReturn && dailyFee >= 0 ==> r >= 0
    ensures expectedReturn < borrowDate && dailyFee > 0 ==> r < 0
  {
    (expectedReturn - borrowDate) * dailyFee
  }

  /** The fine owed on `today`: nothing without an expected date or before it passes. */
  function Fine(expectedReturn: Option<Day>, today: Day): (r: Cents)
    ensures r >= 0
    ensures r > 0 <==> expectedReturn.Some? && expectedReturn.value < today
  {
    if expectedReturn.None? then 0
    else
      var overdueDays := today - expectedReturn.value;
      if overdueDays <= 0 then 0 else overdueDays * FinePerDay
  }

  /** Reference definition: a fixed daily charge accumulated one day at a time. */
  function Accrued(days: nat, perDay: Cents): Cents
  {
    if days == 0 then 0 else Accrued(days - 1, perDay) + perDay
  }

  /** The rental price is the daily fee accrued over every day of the period. */
  lemma {:induction false} RentalPriceIsAccrued(borrowDate: Day, expectedReturn: Day, dailyFee: Cents)
    requires borrowDate <= expectedReturn
    ensures RentalPrice(borrowDate, expectedReturn, dailyFee) == Accrued(expectedReturn - borrowDate, dailyFee)
    decreases expectedReturn - borrowDate
  {
    if expectedReturn > borrowDate {
      RentalPriceIsAccrued(borrowDate, expectedReturn - 1, dailyFee);
      assert (expectedReturn - borrowDate) * dailyFee == (expectedReturn - 1 - borrowDate) * dailyFee + dailyFee;
    }
  }

  /** The rental price is additive over consecutive periods. */
  lemma RentalPriceAdditive(borrowDate: Day, middle: Day, expectedReturn: Day, dailyFee: Cents)
    ensures RentalPrice(borrowDate, expectedReturn, dailyFee)
         == RentalPrice(borrowDate, middle, dailyFee) + RentalPrice(middle, expectedReturn, dailyFee)
  {
    assert (expectedReturn - borrowDate) * dailyFee
        == (middle - borrowDate) * dailyFee + (expectedReturn - middle) * dailyFee;
  }

  /** Doubling the period doubles the price, for a fixed daily fee. */
  lemma RentalPriceDoubles(borrowDate: Day, expectedReturn: Day, dailyFee: Cents)
    ensures RentalPrice(borrowDate, borrowDate + 2 * (expectedReturn - borrowDate), dailyFee)
         == 2 * RentalPrice(borrowDate, expectedReturn, dailyFee)
  {
    RentalPriceAdditive(borrowDate, expectedReturn, borrowDate + 2 * (expectedReturn - borrowDate), dailyFee);
  }

  /**
   * With a positive fee the price has the sign of the period: zero for a
   * same-day period and negative when the expected date precedes the borrow date.
   */
  lemma RentalPriceSign(borrowDate: Day, expectedReturn: Day, dailyFee: Cents)
    requires dailyFee > 0
    ensures RentalPrice(borrowDate, expectedReturn, dailyFee) == 0 <==> expectedReturn == borrowDate
    ensures RentalPrice(borrowDate, expectedReturn, dailyFee) < 0 <==> expectedReturn < borrowDate
    ensures RentalPrice(borrowDate, expectedReturn, dailyFee) > 0 <==> expectedReturn > borrowDate
  {
    var days := expectedReturn - borrowDate;
    if days < 0 {
      assert days * dailyFee == -((-days) * dailyFee);
    }
  }

  /** The fine is the per-day fine accrued over every day past the expected date. */
  lemma {:induction false} FineIsAccrued(expectedReturn: Day, today: Day)
    ensures Fine(Some(expectedReturn), today)
         == (if today <= expectedReturn then 0 else Accrued(today - expectedReturn, FinePerDay))
    decreases today - expectedReturn
  {
    if today > expectedReturn + 1 {
      FineIsAccrued(expectedReturn, today - 1);
    }
  }

  /** From the expected date on, each further day adds exactly one day's fine. */
  lemma FineStep(expectedReturn: Day, today: Day)
    requires expectedReturn <= today
    ensures Fine(Some(expectedReturn), today + 1) == Fine(Some(expectedReturn), today) + FinePerDay
  {
  }

  /** The fine never decreases as the return is delayed. */
  lemma {:induction false} FineMonotone(expectedReturn: Option<Day>, earlier: Day, later: Day)
    requires earlier <= later
    ensures Fine(expectedReturn, earlier) <= Fine(expectedReturn, later)
    decreases later - earlier
  {
    if expectedReturn.Some? && earlier < later {
      FineMonotone(expectedReturn, earlier, later - 1);
    }
  }
}

=== FILE: library.dfy ===
/**
 * The persisted state the views act on: books, borrowings and payments keyed
 * by id, with the next id the database will hand out for each new row.
 */
module Library {
  import opened Wrappers
  import opened Fees
  import opened Catalog
  import opened Borrowings
  import opened Payments

  datatype State = State(
    books: map<BookId, Book>,
    borrowings: map<BorrowingId, Borrowing>,
    payments: map<PaymentId, Payment>,
    nextBorrowingId: nat,
    nextPaymentId: nat)

  /** The authenticated user making a request. */
  datatype Actor = Actor(id: UserId, isStaff: bool)

  /** A chat notification sent by the system; `NothingOverdue` stands for the fixed text "No borrowings overdue today!". */
  datatype Notice =
    | NewBorrowing(borrowing: BorrowingId)
    | FineIssued(borrowing: BorrowingId, amount: Cents)
    | OverdueNotice(borrowing: BorrowingId)
    | NothingOverdue

  /**
   * What the database guarantees: foreign keys point at existing rows, ids
   * already used lie below the next id, and inventories are not negative.
   */
  predicate Wf(s: State)
  {
    && (forall id :: id in s.borrowings ==> id < s.nextBorrowingId && s.borrowings[id].book in s.books)
    && (forall id :: id in s.payments ==> id < s.nextPaymentId && s.payments[id].borrowing in s.borrowings)
    && (forall id :: id in s.books ==> s.books[id].inventory >= 0)
  }

  /** The user already holds a borrowing that is not returned. */
  predicate HasActive(s: State, user: UserId)
  {
    exists id :: id in s.borrowings && s.borrowings[id].user == user && IsActive(s.borrowings[id])
  }

  /** No user holds two active borrowings. */
  predicate SingleActive(s: State)
  {
    forall i, j ::
      i in s.borrowings && j in s.borrowings
      && IsActive(s.borrowings[i]) && IsActive(s.borrowings[j])
      && s.borrowings[i].user == s.borrowings[j].user
      ==> i == j
  }

  /** Adding an active borrowing for a user who holds none keeps every user at one active borrowing. */
  lemma InsertKeepsSingleActive(s: State, t: State, id: BorrowingId)
    requires id !in s.borrowings && id in t.borrowings
    requires t.borrowings == s.borrowings[id := t.borrowings[id]]
    requires !HasActive(s, t.borrowings[id].user)
    ensures SingleActive(s) ==> SingleActive(t)
  {
  }

  /** Closing a borrowing never creates a second active one. */
  lemma CloseKeepsSingleActive(s: State, t: State, id: BorrowingId)
    requires id in s.borrowings && id in t.borrowings
    requires t.borrowings == s.borrowings[id := t.borrowings[id]]
    requires !IsActive(t.borrowings[id])
    ensures SingleActive(s) ==> SingleActive(t)
  {
  }

  /** The user who owns the payment's borrowing. */
  predicate OwnsPayment(s: State, id: PaymentId, user: UserId)
    requires id in s.payments
  {
    var b := s.payments[id].borrowing;
    b in s.borrowings && s.borrowings[b].user == user
  }

  /** The inventory ledger: book `k` gains `delta` copies and every other book is untouched. */
  function Restock(books: map<BookId, Book>, k: BookId, delta: int): (r: map<BookId, Book>)
    requires k in books
    ensures r.Keys == books.Keys
    ensures r[k].inventory == books[k].inventory + delta
    ensures r[k].(inventory := books[k].inventory) == books[k]
    ensures forall j :: j in books && j != k ==> r[j] == books[j]
  {
    books[k := books[k].(inventory := books[k].inventory + delta)]
  }

  /** Taking a copy out and putting it back leaves the ledger as it was. */
  lemma RestockUndo(books: map<BookId, Book>, k: BookId)
    requires k in books
    ensures Restock(Restock(books, k, -1), k, 1) == books
  {
    var r := Restock(Restock(books, k, -1), k, 1);
    assert r[k] == books[k];
  }

  /** The rental price of a stored borrowing, from its dates and its book's daily fee. */
  function PriceOf(s: State, id: BorrowingId): Cents
    requires Wf(s) && id in s.borrowings
  {
    var b := s.borrowings[id];
    RentalPrice(b.borrowDate, b.expectedReturn, s.books[b.book].dailyFee)
  }

  /** `t` is `s` with exactly one payment `p` added under the next payment id. */
  predicate AddsPayment(s: State, t: State, p: Payment)
  {
    && s.nextPaymentId !in s.payments
    && t.payments == s.payments[s.nextPaymentId := p]
    && t.nextPaymentId == s.nextPaymentId + 1
    && t.books == s.books
    && t.borrowings == s.borrowings
    && t.nextBorrowingId == s.nextBorrowingId
  }

  /**
   * Saving a borrowing row on its own (no view around it): only the borrowing
   * table is written, so recording a return date this way leaves every
   * book's inventory as it was. An existing row keeps its id; a new row takes
   * the next id from the sequence, and its book must exist (foreign key).
   */
  function StoreBorrowing(s: State, id: BorrowingId, b: Borrowing, today: Day): (t: State)
    requires Wf(s) && b.book in s.books
    requires id in s.borrowings || id == s.nextBorrowingId
    ensures Wf(t)
    ensures id in s.borrowings ==> t.nextBorrowingId == s.nextBorrowingId
    ensures id !in s.borrowings ==> t.nextBorrowingId == s.nextBorrowingId + 1
    ensures t.books == s.books && t.payments == s.payments && t.nextPaymentId == s.nextPaymentId
    ensures t.borrowings.Keys == s.borrowings.Keys + {id}
    ensures forall other :: other in s.borrowings && other != id ==> t.borrowings[other] == s.borrowings[other]
    ensures id !in s.borrowings ==> t.borrowings[id].borrowDate == today
    ensures id in s.borrowings ==> t.borrowings[id] == b
    ensures t.borrowings[id].actualReturn == b.actualReturn
  {
    s.(borrowings := s.borrowings[id := Borrowings.Save(b, id in s.borrowings, today)],
       nextBorrowingId := if id in s.borrowings then s.nextBorrowingId else s.nextBorrowingId + 1)
  }

  /** Deleting a borrowing also deletes the payments that refer to it. */
  function DeleteBorrowing(s: State, id: BorrowingId): (t: State)
    requires Wf(s)
    ensures Wf(t)
    ensures t.borrowings.Keys == s.borrowings.Keys - {id}
    ensures forall p :: p in t.payments <==> p in s.payments && s.payments[p].borrowing != id
    ensures forall b :: b in t.borrowings ==> t.borrowings[b] == s.borrowings[b]
    ensures forall p :: p in t.payments ==> t.payments[p] == s.payments[p]
    ensures t.books == s.books
    ensures t.nextBorrowingId == s.nextBorrowingId && t.nextPaymentId == s.nextPaymentId
  {
    s.(borrowings := map b | b in s.borrowings && b != id :: s.borrowings[b],
       payments := map p | p in s.payments && s.payments[p].borrowing != id :: s.payments[p])
  }

  /** Deleting a borrowing that was just inserted under a fresh id gives back the state before the insertion. */
  lemma DeleteUndoesInsert(s: State, t: State, id: BorrowingId)
    requires Wf(s) && Wf(t)
    requires id !in s.borrowings
    requires id in t.borrowings
    requires t == s.(borrowings := s.borrowings[id := t.borrowings[id]], nextBorrowingId := t.nextBorrowingId, books := t.books)
    ensures DeleteBorrowing(t, id) == s.(nextBorrowingId := t.nextBorrowingId, books := t.books)
  {
    var d := DeleteBorrowing(t, id);
    assert d.borrowings == s.borrowings;
    assert d.payments == s.payments;
  }
}

=== FILE: overdue_task.dfy ===
/** The daily overdue scan (borrow/tasks.py): which borrowings are reported and which messages go out. */
module OverdueTask {
  import opened Wrappers
  import opened Fees
  import opened Borrowings
  import opened Library

  /** The borrowings the scan reports: due before tomorrow and not returned. */
  function Selected(s: State, today: Day): (r: set<BorrowingId>)
    ensures forall id :: id in r <==>
      id in s.borrowings && s.borrowings[id].expectedReturn <= today && IsActive(s.borrowings[id])
  {
    var tomorrow := today + 1;
    set id | id in s.borrowings && s.borrowings[id].expectedReturn < tomorrow && s.borrowings[id].actualReturn.None?
  }

  /**
   * A reported borrowing already owes a fine if its expected date has passed,
   * and owes none if the expected date is today; an unreported active one owes none.
   */
  lemma SelectionAndFine(s: State, today: Day, id: BorrowingId)
    requires id in s.borrowings && IsActive(s.borrowings[id])
    ensures var e := s.borrowings[id].expectedReturn;
      && (id in Selected(s, today) && e < today ==> Fine(Some(e), today) > 0)
      && (id in Selected(s, today) && e == today ==> Fine(Some(e), today) == 0)
      && (id !in Selected(s, today) ==> Fine(Some(e), today) == 0)
  {
  }

  /**
   * Runs the scan. Each selected borrowing gets exactly one overdue notice,
   * in no particular order; `delivered` tells which sends succeed, and the
   * failures are collected without stopping the loop. An empty selection
   * sends the single "nothing overdue" notice.
   */
  method CheckOverdue(s: State, today: Day, delivered: BorrowingId -> bool)
    returns (sent: seq<Notice>, failed: seq<BorrowingId>)
    ensures Selected(s, today) == {} ==> sent == [NothingOverdue] && failed == []
    ensures Selected(s, today) != {} ==>
      && |sent| == |Selected(s, today)|
      && (forall i :: 0 <= i < |sent| ==> sent[i].OverdueNotice? && sent[i].borrowing in Selected(s, today))
      && (forall id :: id in Selected(s, today) ==> OverdueNotice(id) in sent)
    ensures forall i, j :: 0 <= i < j < |sent| ==> sent[i] != sent[j]
    ensures forall id :: id in failed <==> id in Selected(s, today) && !delivered(id)
  {
    var selected := Selected(s, today);
    if selected == {} {
      return [NothingOverdue], [];
    }
    sent, failed := [], [];
    var remaining := selected;
    while remaining != {}
      invariant remaining <= selected
      invariant |sent| + |remaining| == |selected|
      invariant forall i :: 0 <= i < |sent| ==>
        sent[i].OverdueNotice? && sent[i].borrowing in selected && sent[i].borrowing !in remaining
      invariant forall id :: id in selected && id !in remaining ==> OverdueNotice(id) in sent
      invariant forall i, j :: 0 <= i < j < |sent| ==> sent[i] != sent[j]
      invariant forall id :: id in failed <==> id in selected && id !in remaining && !delivered(id)
      decreases remaining
    {
      var id :| id in remaining;
      sent := sent + [OverdueNotice(id)];
      if !delivered(id) {
        failed := failed + [id];
      }
      remaining := remaining - {id};
    }
  }
}

=== FILE: payment_views.dfy ===
/**
 * The payment endpoints (payment/views.py): listing, checkout-session
 * creation, the gateway's settlement webhook and the status query.
 */
module PaymentViews {
  import opened Wrappers
  import opened Borrowings
  import opened Payments
  import opened Library

  // ---------------------------------------------------------------- listing

  /** The base query set: staff get every payment, others their own in either status. */
  function BaseQuery(s: State, actor: Actor): map<PaymentId, Payment>
  {
    if actor.isStaff then s.payments
    else map id | id in s.payments && OwnsPayment(s, id, actor.id)
                  && s.payments[id].status in {Pending, Paid} :: s.payments[id]
  }

  /** The listing filter applied on top of the base query: others keep only their own pending ones. */
  function ListFilter(q: map<PaymentId, Payment>, s: State, actor: Actor): map<PaymentId, Payment>
  {
    if actor.isStaff then q
    else map id | id in q && id in s.payments && OwnsPayment(s, id, actor.id)
                  && q[id].status == Pending :: q[id]
  }

  /** What a listing shows: every payment to staff, only the caller's pending payments to others. */
  function ListPayments(s: State, actor: Actor): (r: map<PaymentId, Payment>)
    ensures forall id :: id in r <==>
      id in s.payments && (actor.isStaff || (OwnsPayment(s, id, actor.id) && s.payments[id].status == Pending))
    ensures forall id :: id in r ==> r[id] == s.payments[id]
  {
    ListFilter(BaseQuery(s, actor), s, actor)
  }

  /** The status condition of the base query admits every payment: it is just the caller's payments. */
  lemma BaseQueryIsOwnPayments(s: State, actor: Actor)
    requires !actor.isStaff
    ensures forall id :: id in BaseQuery(s, actor) <==> id in s.payments && OwnsPayment(s, id, actor.id)
  {
    forall id | id in s.payments
      ensures s.payments[id].status in {Pending, Paid}
    {
      match s.payments[id].status
      case Pending =>
      case Paid =>
    }
  }

  // ------------------------------------------------------ session creation

  /** The single line item sent to the gateway: the borrowing it is for and its price in cents. */
  datatype Checkout = Checkout(borrowing: BorrowingId, unitAmount: int)

  /** What the gateway answers to a session request. */
  datatype GatewayReply = Opened(sessionId: string, url: string) | Declined

  datatype SessionOutcome = SessionOutcome(state: State, code: int, checkout: Option<Checkout>)

  /**
   * Opening a checkout session for borrowing `pk`. The amount sent is the
   * rental price; the price is kept with two decimals, so the gateway's
   * minor-unit amount equals the price in cents. On the gateway's success a
   * pending rental payment is recorded with the session it returned.
   */
  function CreateSession(s: State, pk: BorrowingId, reply: GatewayReply): (o: SessionOutcome)
    requires Wf(s)
    ensures Wf(o.state)
    ensures pk !in s.borrowings ==> o == SessionOutcome(s, 404, None)
    ensures pk in s.borrowings ==> o.checkout == Some(Checkout(pk, PriceOf(s, pk)))
    ensures o.code == 200 <==> pk in s.borrowings && reply.Opened?
    ensures pk in s.borrowings && reply.Declined? ==> o.code == 400
    ensures o.code != 200 ==> o.state == s
    ensures o.code == 200 ==>
      AddsPayment(s, o.state, Payment(pk, Pending, Rent, reply.url, reply.sessionId, PriceOf(s, pk)))
  {
    if pk !in s.borrowings then SessionOutcome(s, 404, None)
    else
      var price := PriceOf(s, pk);
      var checkout := Checkout(pk, price);
      match reply
      case Declined => SessionOutcome(s, 400, Some(checkout))
      case Opened(sid, url) =>
        var p := NewPayment(pk, Some(Pending), Some(Rent), url, sid, price);
        SessionOutcome(
          s.(payments := s.payments[s.nextPaymentId := p], nextPaymentId := s.nextPaymentId + 1),
          200, Some(checkout))
  }

  // ------------------------------------------------------- session lookup

  /** The payments recorded under a session id; an absent id matches nothing. */
  function Matching(ps: map<PaymentId, Payment>, sessionId: Option<string>): (m: set<PaymentId>)
    ensures forall id :: id in m <==> id in ps && sessionId.Some? && ps[id].sessionId == sessionId.value
  {
    set id | id in ps && sessionId.Some? && ps[id].sessionId == sessionId.value
  }

  /** The outcome of fetching exactly one row by session id. */
  datatype Lookup = Missing | Found(id: PaymentId) | Ambiguous

  lemma SingletonMember<T>(m: set<T>, x: T, y: T)
    requires |m| == 1 && x in m && y in m
    ensures x == y
  {
    if x != y {
      assert {x, y} <= m;
      assert |{x, y}| == 2;
      SubsetCard({x, y}, m);
    }
  }

  lemma SubsetCard<T>(a: set<T>, b: set<T>)
    requires a <= b
    ensures |a| <= |b|
  {
    assert b == a + (b - a);
  }

  /** Fetching the single payment of a session: none, exactly one, or more than one. */
  function Get(ps: map<PaymentId, Payment>, sessionId: Option<string>): (r: Lookup)
    ensures r.Missing? <==> Matching(ps, sessionId) == {}
    ensures r.Found? ==> Matching(ps, sessionId) == {r.id}
    ensures r.Ambiguous? <==> |Matching(ps, sessionId)| > 1
  {
    var m := Matching(ps, sessionId);
    if |m| == 0 then Missing
    else if |m| > 1 then Ambiguous
    else
      var id :| id in m;
      assert forall other :: other in m ==> other == id by {
        forall other | other in m ensures other == id {
          SingletonMember(m, other, id);
        }
      }
      Found(id)
  }

  // --------------------------------------------------------------- webhook

  /**
   * A webhook delivery after the gateway library has checked it: either the
   * payload could not be parsed, or its signature did not verify, or it is an
   * authentic event of some type naming a session id (which may be absent).
   */
  datatype WebhookEvent =
    | Unparseable
    | ForgedSignature
    | Event(eventType: string, sessionId: Option<string>)

  const SessionCompleted := "checkout.session.completed"

  datatype WebhookOutcome = WebhookOutcome(state: State, code: int)

  /** True when `e` is an authentic completed-session event. */
  predicate Completes(e: WebhookEvent)
  {
    e.Event? && e.eventType == SessionCompleted
  }

  /**
   * Settlement callback. Only an authentic completed-session event acts: the
   * one payment of that session becomes paid (200); no payment gives 404 and
   * more than one an unhandled lookup error (500). Other event types are
   * acknowledged with 200, unreadable or forged deliveries rejected with 400.
   */
  function Webhook(s: State, e: WebhookEvent): (o: WebhookOutcome)
    ensures e.Unparseable? || e.ForgedSignature? ==> o == WebhookOutcome(s, 400)
    ensures e.Event? && !Completes(e) ==> o == WebhookOutcome(s, 200)
    ensures Completes(e) ==> (o.code == 404 <==> Matching(s.payments, e.sessionId) == {})
    ensures Completes(e) ==> (o.code == 500 <==> |Matching(s.payments, e.sessionId)| > 1)
    ensures Completes(e) && |Matching(s.payments, e.sessionId)| == 1 ==> o.code == 200
    ensures o.code != 200 ==> o.state == s
    ensures o.state == s.(payments := o.state.payments)
    ensures o.state.payments.Keys == s.payments.Keys
    ensures forall id :: id in s.payments ==>
      o.state.payments[id] ==
        (if Completes(e) && Matching(s.payments, e.sessionId) == {id}
         then s.payments[id].(status := Paid) else s.payments[id])
  {
    match e
    case Unparseable => WebhookOutcome(s, 400)
    case ForgedSignature => WebhookOutcome(s, 400)
    case Event(kind, sid) =>
      if kind != SessionCompleted then WebhookOutcome(s, 200)
      else
        match Get(s.payments, sid)
        case Missing => WebhookOutcome(s, 404)
        case Ambiguous => WebhookOutcome(s, 500)
        case Found(id) =>
          WebhookOutcome(s.(payments := s.payments[id := s.payments[id].(status := Paid)]), 200)
  }

  /** Delivering the same event again changes nothing and gets the same answer. */
  lemma WebhookIdempotent(s: State, e: WebhookEvent)
    ensures Webhook(Webhook(s, e).state, e) == Webhook(s, e)
  {
    var o := Webhook(s, e);
    if Completes(e) {
      assert Matching(o.state.payments, e.sessionId) == Matching(s.payments, e.sessionId) by {
        forall id | id in s.payments
          ensures o.state.payments[id].sessionId == s.payments[id].sessionId
        {
        }
      }
      var o2 := Webhook(o.state, e);
      assert o2.state.payments == o.state.payments;
    }
  }

  /** The webhook only ever moves a payment from pending to paid: paid payments stay paid. */
  lemma WebhookNeverUnpays(s: State, e: WebhookEvent, id: PaymentId)
    requires id in s.payments && s.payments[id].status == Paid
    ensures Webhook(s, e).state.payments[id].status == Paid
  {
  }

  // ---------------------------------------------------------- status query

  datatype StatusReply = StatusReply(code: int, status: Option<Status>)

  /**
   * The success page: reports the status of the session's payment. An absent
   * or empty session id is a bad request; the state is only read.
   */
  function PaymentStatus(s: State, sessionId: Option<string>): (r: StatusReply)
    ensures r.code == 400 <==> sessionId.None? || sessionId == Some("")
    ensures r.code == 500 <==> sessionId.Some? && sessionId.value != "" && |Matching(s.payments, sessionId)| > 1
    ensures r.code == 200 <==> sessionId.Some? && sessionId.value != "" && |Matching(s.payments, sessionId)| == 1
    ensures r.code == 404 <==> sessionId.Some? && sessionId.value != "" && Matching(s.payments, sessionId) == {}
    ensures r.code == 200 ==> forall id :: id in Matching(s.payments, sessionId) ==> r.status == Some(s.payments[id].status)
    ensures r.code != 200 ==> r.status.None?
  {
    if sessionId.None? || sessionId.value == "" then StatusReply(400, None)
    else
      match Get(s.payments, sessionId)
      case Missing => StatusReply(404, None)
      case Ambiguous => StatusReply(500, None)
      case Found(id) => StatusReply(200, Some(s.payments[id].status))
  }

  /** After a completed-session event for a session with one payment, the status page reports it paid. */
  lemma SettledSessionReportsPaid(s: State, sessionId: string)
    requires sessionId != "" && |Matching(s.payments, Some(sessionId))| == 1
    ensures PaymentStatus(Webhook(s, Event(SessionCompleted, Some(sessionId))).state, Some(sessionId))
         == StatusReply(200, Some(Paid))
  {
    var e := Event(SessionCompleted, Some(sessionId));
    var t := Webhook(s, e).state;
    assert Matching(t.payments, Some(sessionId)) == Matching(s.payments, Some(sessionId)) by {
      forall id | id in s.payments
        ensures t.payments[id].sessionId == s.payments[id].sessionId
      {
      }
    }
  }
}

=== FILE: payments.dfy ===
/** The Payment record (payment/models.py): one money-collection attempt tied to a borrowing. */
module Payments {
  import opened Wrappers
  import opened Fees
  import Catalog
  import Borrowings

  type PaymentId = nat

  /** Stored as "PENDING" / "PAID". */
  datatype Status = Pending | Paid

  /** Stored as "PAYMENT" (the rental charge) / "FINE" (the overdue fine). */
  datatype Kind = Rent | Penalty

  /** Both choice columns are seven characters wide. */
  const ChoiceColumnWidth := 7

  function StatusCode(s: Status): string
  {
    match s
    case Pending => "PENDING"
    case Paid => "PAID"
  }

  function KindCode(k: Kind): string
  {
    match k
    case Rent => "PAYMENT"
    case Penalty => "FINE"
  }

  function ParseStatus(s: string): (r: Option<Status>)
    ensures r.Some? ==> StatusCode(r.value) == s
    ensures r.None? ==> s != "PENDING" && s != "PAID"
  {
    if s == "PENDING" then Some(Pending) else if s == "PAID" then Some(Paid) else None
  }

  function ParseKind(s: string): (r: Option<Kind>)
    ensures r.Some? ==> KindCode(r.value) == s
    ensures r.None? ==> s != "PAYMENT" && s != "FINE"
  {
    if s == "PAYMENT" then Some(Rent) else if s == "FINE" then Some(Penalty) else None
  }

  /** Every stored code fits its column and reads back as the choice it came from. */
  lemma CodesRoundTrip(s: Status, k: Kind)
    ensures |StatusCode(s)| <= ChoiceColumnWidth && |KindCode(k)| <= ChoiceColumnWidth
    ensures ParseStatus(StatusCode(s)) == Some(s)
    ensures ParseKind(KindCode(k)) == Some(k)
  {
  }

  /** A payment. `amount` is in cents; fine payments are stored with empty session fields. */
  datatype Payment = Payment(
    borrowing: Borrowings.BorrowingId,
    status: Status,
    kind: Kind,
    sessionUrl: string,
    sessionId: string,
    amount: Cents)

  /** A payment row written with the column defaults for any omitted status or kind. */
  function NewPayment(
    borrowing: Borrowings.BorrowingId, status: Option<Status>, kind: Option<Kind>,
    sessionUrl: string, sessionId: string, amount: Cents): (p: Payment)
    ensures status.None? ==> p.status == Pending
    ensures kind.None? ==> p.kind == Rent
    ensures status.Some? ==> p.status == status.value
    ensures kind.Some? ==> p.kind == kind.value
    ensures p.borrowing == borrowing && p.sessionUrl == sessionUrl && p.sessionId == sessionId && p.amount == amount
  {
    Payment(
      borrowing,
      match status case Some(s) => s case None => Pending,
      match kind case Some(k) => k case None => Rent,
      sessionUrl, sessionId, amount)
  }

  const Separator := " - "

  /** The display form "{type} - {status}". */
  function Label(p: Payment): (s: string)
    ensures |s| == |KindCode(p.kind)| + |Separator| + |StatusCode(p.status)|
    ensures s[..|KindCode(p.kind)|] == KindCode(p.kind)
    ensures s[|KindCode(p.kind)|..|KindCode(p.kind)| + |Separator|] == Separator
    ensures s[|s| - |StatusCode(p.status)|..] == StatusCode(p.status)
  {
    KindCode(p.kind) + Separator + StatusCode(p.status)
  }

  /** Reads a display label back into its kind and status. */
  function ParseLabel(s: string): Option<(Kind, Status)>
  {
    var rent := KindCode(Rent) + Separator;
    var penalty := KindCode(Penalty) + Separator;
    if |s| >= |rent| && s[..|rent|] == rent then
      match ParseStatus(s[|rent|..])
      case Some(st) => Some((Rent, st))
      case None => None
    else if |s| >= |penalty| && s[..|penalty|] == penalty then
      match ParseStatus(s[|penalty|..])
      case Some(st) => Some((Penalty, st))
      case None => None
    else None
  }

  /** The label determines the kind and the status of the payment. */
  lemma LabelRoundTrip(p: Payment)
    ensures ParseLabel(Label(p)) == Some((p.kind, p.status))
  {
    var s := Label(p);
    var head := KindCode(p.kind) + Separator;
    assert s == head + StatusCode(p.status);
    assert s[..|head|] == head;
    assert s[|head|..] == StatusCode(p.status);
    if p.kind == Penalty {
      var rent := KindCode(Rent) + Separator;
      assert s[..|rent|] != rent by {
        assert s[0] == 'F' && rent[0] == 'P';
      }
    }
  }

  /** The amount column keeps eight digits of which two are decimals: at most 999999.99. */
  const MaxAmountCents := 99999999

  predicate AmountFits(c: Cents)
  {
    -MaxAmountCents <= c <= MaxAmountCents
  }

  /** Multiplying by a non-negative factor preserves order. */
  lemma MulMonotone(a: int, b: int, c: int)
    requires 0 <= a <= b && 0 <= c
    ensures a * c <= b * c
  {
    assert b * c - a * c == (b - a) * c;
  }

  /** Any rental of up to a thousand days of a book whose fee fits its column fits the amount column. */
  lemma RentalPriceFitsColumn(borrowDate: Day, expectedReturn: Day, dailyFee: Cents)
    requires 0 <= expectedReturn - borrowDate <= 1000
    requires Catalog.FeeFits(dailyFee)
    ensures AmountFits(RentalPrice(borrowDate, expectedReturn, dailyFee))
  {
    var days := expectedReturn - borrowDate;
    var size := if dailyFee >= 0 then dailyFee else -dailyFee;
    MulMonotone(days, 1000, size);
    MulMonotone(size, Catalog.MaxFeeCents, 1000);
    assert RentalPrice(borrowDate, expectedReturn, dailyFee) == (if dailyFee >= 0 then days * size else -(days * size));
  }

}

=== FILE: wrappers.dfy ===
/** Option and Result datatypes shared by every module. */
module Wrappers {

  /** A value that may be absent: a nullable column or an optional request field. */
  datatype Option<+T> = None | Some(value: T)

  /** The outcome of a step that either produces a value or reports an error. */
  datatype Result<+T, +E> = Ok(value: T) | Err(error: E)
}
